=== FILE: README.md ===
# Voluntarios server core in Dafny

A model of the server-side domain logic of Voluntarios, a volunteer-matching
backend. Organizations publish volunteer opportunities with a fixed number of
slots. Volunteers sign up and cancel. A super admin creates and approves
organizations.

The database is an immutable `Schema.Store`. It holds one map per table
(users, organizations, opportunities, signups) from row id to row, plus the
next AUTOINCREMENT id of each table. Every route handler is a pure function
from the store to either an error kind or a new store, and in the model an
error writes nothing. Most handlers make their reads and writes in one
synchronous run on an embedded database, so a sequential model matches them.
Registration awaits password hashing between its email check and its insert.
Organization creation commits the organization row first, then awaits the
hashing, then inserts the admin user, so a failure at that last step leaves an
organization without an admin. The model treats both as one all-or-nothing
step (see "Left out").

Modules follow the source files:

| module | source file | contents |
|---|---|---|
| `Wrappers` | — | `Option`, `Result` |
| `Errors` | the route files | the error kinds the handlers answer with |
| `Schema` | server/db.js | row datatypes, status enumerations, defaults, the UNIQUE / FOREIGN KEY constraints as `Valid`, the capacity ledger `SlotLedger`, the status rule `StatusMatchesSlots`, the super-admin seed |
| `Middleware` | server/middleware/auth.js | the claims a token carries, the `auth(roles)` gate |
| `Accounts` | server/routes/auth.js | register, verify email, login |
| `Admin` | server/routes/admin.js | create organization, set organization status, list organizations |
| `Organizations` | server/routes/organizations.js | create / edit opportunity, roster, overwrite signup status |
| `Volunteers` | server/routes/volunteers.js | sign up, cancel, browse, signup history |
| `Public` | server/routes/public.js | public listing with filters, detail |

The central property is the capacity ledger. For every opportunity,
`remaining_slots == total_slots - (number of registered signups)`. Signing up,
cancelling and creating an opportunity keep it, and so does an edit that gives
a non-zero total. Two operations break it, and lemmas show how:

- An edit with total 0. Zero is falsy in the route, so the recount is skipped but 0 is still written.
- The organization's signup-status update, whenever it moves a row into or out of registered. The status is overwritten and the slot count is not touched. Cancelling or completing a registered signup keeps its slot taken (`Organizations.OrgUnregisterKeepsSlot`). Setting a cancelled or completed signup back to registered takes a place without a slot, so on a full opportunity the registered signups exceed the total (`Organizations.OrgReRegisterBreaksLedger`).

Behaviours of the code a reader may not expect:

- A signup row blocks the (volunteer, opportunity) pair whatever its status. The UNIQUE constraint and the duplicate check do not look at the status. A volunteer who cancelled cannot sign up again (`Volunteers.ResignUpAfterCancelRejected`).
- A full opportunity is refused with "not found or not published". The published lookup runs before the slot check. So when the last slot goes, a later signup gets `OpportunityUnavailable`, not "full". While the status rule holds, the "full" answer cannot occur at all (`Volunteers.FullAnswerUnreachable`, `Volunteers.LastSlotTakenOnce`).
- The organization's signup-status update also accepts `registered`. It reports a signup of another organization as not found. No status is final (`Organizations.NoFinalSignupStatus`).
- Cancelling an opportunity that has already started fails only for the caller's own registered signup. For any other signup the not-found answer comes first.
- Nothing checks slot counts when an opportunity is created.
- An edit stores any status text the enumeration admits, including `full` with slots left (`Organizations.ExplicitFullKeepsRoom`).
- Signing up does not check that the organization is approved (`Public.SignUpIgnoresApproval`).

Collaborators that are parameters:

- bcrypt hashing is `hash: string -> string`. Password comparison is `matches`.
- JWT verification is `verify`, which returns the user object the token carries, or `None` when verification throws. The email-verification token carries only the user id, so its role is absent (`Middleware.RoleLessToken`). Login returns the claims a token would carry, not the signed token.
- The clock is the `now: int` argument of cancel. All dates are integers.
- The seed's password hash is an argument.

## Model

| member | source | states |
|---|---|---|
| Schema.ParseOppStatus | server/db.js:43 | an opportunity status text is admitted exactly when it names one of draft, published, closed, full, and then it names that status |
| Schema.ParseSignupStatus | server/db.js:52 | a signup status text is admitted exactly when it names one of registered, completed, cancelled |
| Schema.StatusNamesRoundTrip | server/db.js:43-52 | parsing a stored status name gives the same status back |
| Schema.EmptyStoreValid | server/db.js:12-66 | the freshly created database meets every constraint, the ledger and the status rule |
| Schema.RegisteredCountAfterWrite | server/routes/organizations.js:57 | writing one signup row changes an opportunity's registered count by at most one, as the row leaves or joins the registered set |
| Schema.SeedSuperAdmin | server/db.js:75-84 | after seeding, a user with the seed email exists; an existing one leaves the store unchanged; otherwise exactly one row is added under the next id, holding the seed email, the given hash, role super_admin, verified and no organization, while every existing user row and every other table stays as it was |
| Schema.SeedIdempotent | server/db.js:75-84 | seeding twice equals seeding once, whatever hash the second run computes |
| Schema.SeedPreservesValid | server/db.js:75-84 | seeding keeps emails unique and all other constraints |
| Volunteers.SignUp | server/routes/volunteers.js:40-71 | checks run in order (published, room left, no signup row of any status for the pair, then the volunteer's user row, whose absence fails the foreign key), the first failing one decides; success inserts one registered row under a fresh id, lowers that opportunity's remaining slots by exactly 1, marks it full exactly when none remain, and changes no other opportunity, user or organization |
| Volunteers.CancelSignup | server/routes/volunteers.js:105-132 | only the caller's own registered signup can be cancelled, and only if the start is not before now; success marks it cancelled, adds 1 to remaining slots, turns full into published exactly when slots are now positive and keeps any other status, and changes nothing else |
| Volunteers.SignUpKeepsSchema | server/routes/volunteers.js:54-63 | a successful signup keeps every schema constraint, in particular at most one signup per (volunteer, opportunity) |
| Volunteers.InsertSignupKeepsSchema | server/db.js:48-57 | inserting a signup for an unused pair, an existing volunteer and an existing opportunity keeps the schema constraints |
| Volunteers.SignUpKeepsLedger | server/routes/volunteers.js:61-63 | a successful signup keeps remaining = total - registered for every opportunity |
| Volunteers.SignUpKeepsStatusRule | server/routes/volunteers.js:65-70 | a successful signup keeps "published has room, full has none" |
| Volunteers.CancelKeepsSchema | server/routes/volunteers.js:122-124 | a successful cancel keeps every schema constraint |
| Volunteers.CancelKeepsLedger | server/routes/volunteers.js:122-124 | a successful cancel keeps remaining = total - registered for every opportunity |
| Volunteers.CancelKeepsStatusRule | server/routes/volunteers.js:126-131 | a successful cancel keeps "published has room, full has none" |
| Volunteers.SignUpThenCancelRestores | server/routes/volunteers.js:61-131 | signing up and then cancelling before the start succeeds and restores every opportunity exactly (slots and status); only the cancelled row remains |
| Volunteers.ResignUpAfterCancelRejected | server/routes/volunteers.js:54-58 | after signing up and cancelling, signing up again for the same opportunity is refused as a duplicate |
| Volunteers.RepeatedSignUpRejected | server/routes/volunteers.js:45-58 | a second signup for the same pair is refused: as a duplicate while slots remain, as unavailable once the first took the last slot |
| Volunteers.LastSlotTakenOnce | server/routes/volunteers.js:45-70 | with one slot left, the first signup leaves 0 slots and status full, and any later signup is refused |
| Volunteers.FullAnswerUnreachable | server/routes/volunteers.js:45-52 | while published opportunities have room, a signup is never answered "opportunity is full" |
| Volunteers.TwoSlotScenario | server/routes/volunteers.js:40-131 | two slots: A and B sign up (1 slot published, then 0 slots full), C is refused, A cancels (1 slot, published again) |
| Volunteers.Browse | server/routes/volunteers.js:29 | the volunteer browse list holds exactly the published opportunities of approved organizations |
| Volunteers.InsertNewestFirst | server/routes/volunteers.js:150 | inserting one row into the history adds exactly that row and keeps all others |
| Volunteers.InsertKeepsOrder | server/routes/volunteers.js:150 | inserting into a history ordered by start date, latest first, keeps it ordered |
| Volunteers.InsertKeepsDistinct | server/routes/volunteers.js:150 | inserting a row not yet present keeps every row listed once |
| Volunteers.MySignups | server/routes/volunteers.js:146-156 | the history lists each of the volunteer's joined signups exactly once, in any status, latest start date first |
| Organizations.CreateOpportunity | server/routes/organizations.js:15-38 | only a caller whose organization exists and is approved can create; the new opportunity belongs to that organization, is a draft with the given title, description, location, dates and total, has remaining = total slots, and no other row or counter changes |
| Organizations.CreateKeepsSchema | server/routes/organizations.js:25-29 | creating an opportunity keeps the schema constraints |
| Organizations.CreateKeepsLedger | server/routes/organizations.js:25-29 | a new opportunity has no registered signups, so the ledger still holds |
| Organizations.CreatedIsDraft | server/routes/organizations.js:29 | a new opportunity is not published, and the status rule still holds |
| Organizations.UpdateOpportunity | server/routes/organizations.js:43-81 | an edit succeeds exactly when the opportunity is owned by the caller's organization, a new total is not below the registered count, and any status given is in the enumeration; an opportunity not owned is not found; a new total below the registered count is refused; a new total sets remaining to total - registered, otherwise remaining stays; the title, description, location, dates and total are written from the edit; the status asked for (or, when none is given, the stored one) is written, except that "published" becomes full exactly when no slot remains; a status text outside the enumeration is refused by the CHECK constraint with nothing written |
| Organizations.UpdateKeepsSchema | server/routes/organizations.js:70-72 | an edit keeps the schema constraints, and the owner of the row never changes |
| Organizations.UpdateKeepsLedger | server/routes/organizations.js:54-62 | an edit with a non-zero total keeps the ledger |
| Organizations.ZeroTotalBreaksLedger | server/routes/organizations.js:56 | an edit with total 0 on an opportunity with a non-zero total breaks the ledger |
| Organizations.PublishByEdit | server/routes/organizations.js:64-72 | an edit asking for "published" publishes an owned opportunity that has room, and stores one with no slot left as full |
| Organizations.ExplicitFullKeepsRoom | server/routes/organizations.js:65-68 | an edit asking for "full" stores full even while slots remain |
| Organizations.Roster | server/routes/organizations.js:100-116 | the roster is returned exactly when the caller's organization owns the opportunity, and is otherwise not found; it is exactly that opportunity's signup rows (in any status) joined with their users |
| Organizations.RosterCountsTakenSlots | server/routes/organizations.js:100-116 | on a consistent database with the ledger intact, the roster of an owned opportunity lists every signup row of it, and its registered rows number exactly total slots minus remaining slots |
| Organizations.SetSignupStatus | server/routes/organizations.js:121-146 | the status must be registered, completed or cancelled (checked first); a signup whose opportunity belongs to another organization is not found; success overwrites that one status and never touches opportunities or slots |
| Organizations.SetSignupStatusKeepsSchema | server/routes/organizations.js:137 | overwriting a signup status keeps the schema constraints |
| Organizations.OrgReRegisterBreaksLedger | server/routes/organizations.js:126-137 | an organization setting a cancelled or completed signup back to registered raises the registered count by one but leaves remaining slots, so the ledger no longer holds, and on a full opportunity registered signups exceed the total |
| Organizations.OrgUnregisterKeepsSlot | server/routes/organizations.js:121-137 | an organization cancelling a registered signup, or marking it completed, lowers the registered count by one but leaves remaining slots, so the ledger no longer holds |
| Organizations.NoFinalSignupStatus | server/routes/organizations.js:126-137 | any signup of the caller's organization, cancelled or completed included, can be set back to registered |
| Admin.CreateOrganization | server/routes/admin.js:16-54 | an existing name or admin email is refused and nothing is inserted (a used contact email fails the UNIQUE constraint); success adds one pending organization with the given name, contact email and description, and one verified org_admin user with the admin email and the hashed password, linked to it, and nothing else |
| Admin.CreateOrganizationKeepsSchema | server/routes/admin.js:20-45 | creating an organization keeps names, contact emails and user emails unique |
| Admin.SettableOrgStatus | server/routes/admin.js:63-65 | only approved, rejected and disabled are accepted; pending never is |
| Admin.SetOrganizationStatus | server/routes/admin.js:59-82 | an invalid status is refused before the lookup, an unknown organization is not found, and success overwrites only that organization's status, whatever it was before |
| Admin.SetOrganizationStatusKeepsSchema | server/routes/admin.js:73 | a status change keeps the schema constraints |
| Admin.ListOrganizations | server/routes/admin.js:87-104 | without a filter the list is every organization, with one it is a subset |
| Admin.ListByStatus | server/routes/admin.js:92-95 | filtering by a status name lists exactly the organizations in that status, and a filter naming no status lists none |
| Admin.ApprovalMovesListing | server/routes/admin.js:59-98 | after approval the organization is listed under approved and not under pending |
| Middleware.Authorize | server/middleware/auth.js:5-28 | a missing token and a token that fails verification get 401; with a non-empty role list a verified token whose role is absent or outside it gets 403 (exactly then); admission carries the verified claims |
| Middleware.OneRoleIsOneElementList | server/middleware/auth.js:6-8 | a single role name gates exactly like the one-element list |
| Middleware.NoRolesAdmitsAnyVerified | server/middleware/auth.js:21-24 | with no roles, every verified token is admitted |
| Middleware.SingleRoleGate | server/middleware/auth.js:21-23 | a single-role route admits a verified token exactly when its role is that role, and otherwise answers 403 |
| Middleware.RoleLessToken | server/middleware/auth.js:21-24 | a verified token without a role, such as the email-verification token (server/routes/auth.js signs only the id), gets 403 from every gate naming roles and passes the gate naming none |
| Accounts.Register | server/routes/auth.js:24-71 | an existing email is refused; otherwise exactly one unverified volunteer with no organization and the hashed password is added |
| Accounts.RegisterKeepsSchema | server/routes/auth.js:28-40 | registration keeps user emails unique |
| Accounts.VerifyEmail | server/routes/auth.js:76-103 | a missing token, an invalid token and an unknown user are refused; success sets only that user's verified flag, and an already verified user is left unchanged |
| Accounts.VerifyEmailIdempotent | server/routes/auth.js:87-96 | following a verification link twice has the effect of following it once |
| Accounts.VerifyEmailKeepsSchema | server/routes/auth.js:96 | verification keeps the schema constraints |
| Accounts.Login | server/routes/auth.js:108-147 | unknown email and wrong password give the same invalid-credentials answer; exactly the unverified volunteers with correct credentials are refused for verification; success carries exactly the user's id, role and organization |
| Accounts.RegisterVerifyLogin | server/routes/auth.js:24-147 | a new volunteer cannot log in until verified; after verification login succeeds, and its claims pass the volunteer routes' gate |
| Accounts.CreatedOrgAdminLogsIn | server/routes/admin.js:35-45 | an organization admin created by the super admin can log in at once with the chosen password, and the claims name the new organization and pass the organization routes' gate |
| Public.VerbatimIsMatched | server/routes/public.js:28-31 | a location containing the filter text verbatim passes the location filter |
| Public.LikeIgnoresCase | server/routes/public.js:28-31 | the location filter ignores ASCII letter case in the filter text |
| Public.Listing | server/routes/public.js:9-48 | the listing is exactly the published opportunities of approved organizations that pass each present filter (location contains the text, start on or after startDate, end on or before endDate) |
| Public.Detail | server/routes/public.js:53-86 | the detail is found exactly when the opportunity is published under an approved organization, and it is that row |
| Public.FiltersNarrow | server/routes/public.js:24-39 | filters only narrow the listing, and without filters it equals the volunteers' browse list |
| Public.ListedHaveDetail | server/routes/public.js:24-79 | every listed opportunity has a detail |
| Public.FullIsHidden | server/routes/public.js:74-79 | a full opportunity is neither listed nor viewable |
| Public.LastSlotHidesListing | server/routes/public.js:24 | taking the last slot removes the opportunity from the listing, and cancelling that signup restores its listing |
| Public.SignUpIgnoresApproval | server/routes/volunteers.js:45-48 | a published opportunity with room, of an organization that is not approved, accepts a new volunteer's signup, although no listing or detail shows it |

## Left out

- Email delivery (volunteer confirmation, organization notice, verification link). It is sent after the commit and does not change the store.
- The activity log. It is an audit table that no modelled route reads.
- bcrypt and jsonwebtoken internals. Hashing, comparison, signing and verification are parameters. Token expiry lives inside the verification oracle.
- Concurrency. Registration awaits password hashing between its email check and its insert, so a concurrent request could slip in. The model runs each handler as one atomic step.
- Admin.CreateOrganization: modelled all-or-nothing. The source commits the organization row before hashing the admin password, with no transaction. If the admin insert then fails, the route answers 500 and the organization stays without an admin. This happens when a concurrent registration takes the admin email, or when a missing password makes hashing throw.
- The CSV export (server/routes/organizations.js:151-178). It only formats strings.
- The organization's own opportunity list (server/routes/organizations.js:86-95), the admin's opportunity and signup lists (server/routes/admin.js:109-130) and `GET /me` (server/routes/auth.js:152-160). They are plain selects with no rule to state.
- HTTP response bodies and status codes. Only the error kind is modelled.
- Tokens that verify against the secret but carry no user object. The program never signs one. Under `auth()` the source would let such a token through, and under a role list it would answer 401.
- Dates are integers. SQLite compares the stored DATETIME text.
- Public.Listing: `%` and `_` inside the location text act as LIKE wildcards in the source. The model matches them as plain characters.
- Missing request fields (undefined title and so on) that would violate NOT NULL, and JavaScript type coercion (a total sent as a string compares unequal to the stored number). Request fields are typed values. An empty string and a total of 0 stand for JavaScript's falsy values.
- Row timestamps (`created_at`), the organization logo, and the foreign-key ON DELETE actions. No modelled route deletes rows.
- The client application and the server wiring (server/index.js).

=== FILE: accounts.dfy ===
/**
  The account routes (server/routes/auth.js): volunteer registration, email
  verification and login. Password hashing, password comparison and token
  verification are parameters; login yields the claims the issued token
  carries rather than the signed token itself. The verification email is
  not part of the model.
*/
module Accounts {
  import opened Wrappers
  import opened Schema
  import opened Errors
  import Middleware
  import Admin

  /** A new volunteer account, unverified, unless a user with that email exists. */
  function Register(s: Store, email: string, password: string, hash: string -> string): (r: Result<Store, Error>)
    ensures EmailTaken(s.users, email) <==> r == Failure(UserExists)
    ensures r.Success? <==> !EmailTaken(s.users, email)
    ensures r.Success? ==>
              && r.value.users.Keys == s.users.Keys + {s.nextUser}
              && (forall id :: id in s.users && id != s.nextUser ==> r.value.users[id] == s.users[id])
              && r.value.users[s.nextUser].email == email
              && r.value.users[s.nextUser].passwordHash == hash(password)
              && r.value.users[s.nextUser].role == Volunteer
              && r.value.users[s.nextUser].emailVerified == EmailVerifiedDefault
              && r.value.users[s.nextUser].orgId.None?
              && r.value.orgs == s.orgs && r.value.opps == s.opps && r.value.signups == s.signups
              && r.value.nextUser == s.nextUser + 1
              && r.value.nextOrg == s.nextOrg && r.value.nextOpp == s.nextOpp && r.value.nextSignup == s.nextSignup
  {
    if EmailTaken(s.users, email) then Failure(UserExists)
    else Success(AddUser(s, User(email, hash(password), Volunteer, false, None)))
  }

  /** Registration keeps user emails unique. */
  lemma RegisterKeepsSchema(s: Store, email: string, password: string, hash: string -> string)
    requires Valid(s)
    requires Register(s, email, password, hash).Success?
    ensures Valid(Register(s, email, password, hash).value)
  {
    assert s.nextUser !in s.users;
    forall a | a in s.users
      ensures s.users[a].email != email
    {
    }
  }

  /**
    Email verification from a link token (the empty text when missing). An
    already verified user is answered with success and left as is.
  */
  function VerifyEmail(s: Store, token: string, verify: string -> Option<Id>): (r: Result<Store, Error>)
    ensures token == "" ==> r == Failure(TokenMissing)
    ensures token != "" && verify(token).None? ==> r == Failure(TokenInvalid)
    ensures (token != "" && verify(token).Some? && verify(token).value !in s.users) ==> r == Failure(UserNotFound)
    ensures r.Success? <==> token != "" && verify(token).Some? && verify(token).value in s.users
    ensures r.Success? ==>
              var id := verify(token).value;
              && r.value.users.Keys == s.users.Keys
              && r.value.users[id].emailVerified
              && r.value.users[id].(emailVerified := false) == s.users[id].(emailVerified := false)
              && (forall other :: other in s.users && other != id ==> r.value.users[other] == s.users[other])
              && r.value.orgs == s.orgs && r.value.opps == s.opps && r.value.signups == s.signups
              && r.value.nextUser == s.nextUser
              && r.value.nextOrg == s.nextOrg && r.value.nextOpp == s.nextOpp && r.value.nextSignup == s.nextSignup
    ensures r.Success? && s.users[verify(token).value].emailVerified ==> r.value == s
  {
    if token == "" then Failure(TokenMissing)
    else match verify(token)
      case None => Failure(TokenInvalid)
      case Some(id) =>
        if id !in s.users then Failure(UserNotFound)
        else if s.users[id].emailVerified then Success(s)
        else Success(s.(users := s.users[id := s.users[id].(emailVerified := true)]))
  }

  /** Following the same verification link twice has the effect of following it once. */
  lemma VerifyEmailIdempotent(s: Store, token: string, verify: string -> Option<Id>)
    requires VerifyEmail(s, token, verify).Success?
    ensures VerifyEmail(VerifyEmail(s, token, verify).value, token, verify) == VerifyEmail(s, token, verify)
  {
  }

  /** Verification keeps the schema constraints. */
  lemma VerifyEmailKeepsSchema(s: Store, token: string, verify: string -> Option<Id>)
    requires Valid(s)
    requires VerifyEmail(s, token, verify).Success?
    ensures Valid(VerifyEmail(s, token, verify).value)
  {
  }

  /** Some user has this email and this password matches the user's hash. */
  predicate CredentialsMatch(s: Store, email: string, password: string, matches: (string, string) -> bool) {
    exists id :: id in s.users && s.users[id].email == email && matches(password, s.users[id].passwordHash)
  }

  /**
    Login: an unknown email and a wrong password get the same answer; an
    unverified volunteer is refused, while unverified organization and super
    admins are not; success yields exactly the user's id, role and
    organization.
  */
  function Login(s: Store, email: string, password: string, matches: (string, string) -> bool): (r: Result<Middleware.Claims, Error>)
    requires EmailsUnique(s.users)
    ensures r.Success? || r == Failure(InvalidCredentials) || r == Failure(EmailNotVerified)
    ensures r == Failure(InvalidCredentials) <==> !CredentialsMatch(s, email, password, matches)
    ensures r == Failure(EmailNotVerified) <==>
              exists id :: id in s.users && s.users[id].email == email && matches(password, s.users[id].passwordHash)
                           && !s.users[id].emailVerified && s.users[id].role == Volunteer
    ensures r.Success? ==>
              && r.value.id in s.users
              && s.users[r.value.id].email == email
              && matches(password, s.users[r.value.id].passwordHash)
              && (s.users[r.value.id].emailVerified || s.users[r.value.id].role != Volunteer)
              && r.value.role == Some(s.users[r.value.id].role)
              && r.value.orgId == s.users[r.value.id].orgId
  {
    if !EmailTaken(s.users, email) then Failure(InvalidCredentials)
    else
      var id :| id in s.users && s.users[id].email == email;
      var user := s.users[id];
      if !matches(password, user.passwordHash) then Failure(InvalidCredentials)
      else if !user.emailVerified && user.role == Volunteer then Failure(EmailNotVerified)
      else Success(Middleware.Claims(id, Some(user.role), user.orgId))
  }

  /**
    The account lifecycle of a volunteer: right after registering, login is
    refused until the email is verified; after verification, login succeeds
    and its claims pass the volunteer routes' gate.
  */
  lemma RegisterVerifyLogin(
    s: Store, email: string, password: string, hash: string -> string,
    matches: (string, string) -> bool, link: string, verifyLink: string -> Option<Id>,
    token: string, verifyToken: string -> Option<Middleware.Claims>)
    requires Valid(s)
    requires Register(s, email, password, hash).Success?
    requires matches(password, hash(password))
    requires link != "" && verifyLink(link) == Some(s.nextUser)
    ensures var registered := Register(s, email, password, hash).value;
            && Valid(registered)
            && Login(registered, email, password, matches) == Failure(EmailNotVerified)
            && VerifyEmail(registered, link, verifyLink).Success?
    ensures var verified := VerifyEmail(Register(s, email, password, hash).value, link, verifyLink).value;
            && EmailsUnique(verified.users)
            && Login(verified, email, password, matches) == Success(Middleware.Claims(s.nextUser, Some(Volunteer), None))
            && (token != "" && verifyToken(token) == Some(Middleware.Claims(s.nextUser, Some(Volunteer), None))
                ==> Middleware.Authorize(Middleware.OneRole("volunteer"), token, verifyToken).Admit?)
  {
    var registered := Register(s, email, password, hash).value;
    RegisterKeepsSchema(s, email, password, hash);
    assert registered.users[s.nextUser].email == email;
    assert CredentialsMatch(registered, email, password, matches);
    var verified := VerifyEmail(registered, link, verifyLink).value;
    VerifyEmailKeepsSchema(registered, link, verifyLink);
    assert verified.users[s.nextUser].email == email;
    assert CredentialsMatch(verified, email, password, matches);
  }

  /**
    An organization admin created by the super admin can log in at once with
    the password chosen for them (their email is created verified), and the
    claims name their organization and pass the organization routes' gate.
  */
  lemma CreatedOrgAdminLogsIn(
    s: Store, name: string, contactEmail: string, description: string,
    adminEmail: string, adminPassword: string, hash: string -> string,
    matches: (string, string) -> bool, token: string, verifyToken: string -> Option<Middleware.Claims>)
    requires Valid(s)
    requires Admin.CreateOrganization(s, name, contactEmail, description, adminEmail, adminPassword, hash).Success?
    requires matches(adminPassword, hash(adminPassword))
    ensures var t := Admin.CreateOrganization(s, name, contactEmail, description, adminEmail, adminPassword, hash).value;
            && EmailsUnique(t.users)
            && Login(t, adminEmail, adminPassword, matches) == Success(Middleware.Claims(s.nextUser, Some(OrgAdmin), Some(s.nextOrg)))
            && (token != "" && verifyToken(token) == Some(Middleware.Claims(s.nextUser, Some(OrgAdmin), Some(s.nextOrg)))
                ==> Middleware.Authorize(Middleware.OneRole("org_admin"), token, verifyToken).Admit?)
  {
    var t := Admin.CreateOrganization(s, name, contactEmail, description, adminEmail, adminPassword, hash).value;
    Admin.CreateOrganizationKeepsSchema(s, name, contactEmail, description, adminEmail, adminPassword, hash);
    assert t.users[s.nextUser].email == adminEmail;
    assert CredentialsMatch(t, adminEmail, adminPassword, matches);
  }
}

=== FILE: admin.dfy ===
/**
  The super-admin routes (server/routes/admin.js): creating an organization
  together with its admin account, approving / rejecting / disabling an
  organization, and listing organizations by status. Password hashing is a
  parameter.
*/
module Admin {
  import opened Wrappers
  import opened Schema
  import opened Errors

  /**
    A new organization (pending) and its admin user (role org_admin, linked
    to the organization, email already verified). The organization's name and
    the admin's email must be unused; a contact email already used by another
    organization makes the insert fail on the UNIQUE constraint.
  */
  function CreateOrganization(
    s: Store, name: string, contactEmail: string, description: string,
    adminEmail: string, adminPassword: string, hash: string -> string): (r: Result<Store, Error>)
    ensures OrgNameTaken(s.orgs, name) ==> r == Failure(OrganizationNameTaken)
    ensures (!OrgNameTaken(s.orgs, name) && EmailTaken(s.users, adminEmail)) ==> r == Failure(AdminEmailTaken)
    ensures r.Success? <==>
              !OrgNameTaken(s.orgs, name) && !EmailTaken(s.users, adminEmail) && !ContactEmailTaken(s.orgs, contactEmail)
    ensures r.Success? ==>
              && r.value.orgs.Keys == s.orgs.Keys + {s.nextOrg}
              && (forall id :: id in s.orgs && id != s.nextOrg ==> r.value.orgs[id] == s.orgs[id])
              && r.value.orgs[s.nextOrg] == Organization(name, contactEmail, description, OrgStatusDefault)
              && r.value.users.Keys == s.users.Keys + {s.nextUser}
              && (forall id :: id in s.users && id != s.nextUser ==> r.value.users[id] == s.users[id])
              && r.value.users[s.nextUser] == User(adminEmail, hash(adminPassword), OrgAdmin, true, Some(s.nextOrg))
              && r.value.nextOrg == s.nextOrg + 1 && r.value.nextUser == s.nextUser + 1
              && r.value.nextOpp == s.nextOpp && r.value.nextSignup == s.nextSignup
              && r.value.opps == s.opps && r.value.signups == s.signups
  {
    if OrgNameTaken(s.orgs, name) then Failure(OrganizationNameTaken)
    else if EmailTaken(s.users, adminEmail) then Failure(AdminEmailTaken)
    else if ContactEmailTaken(s.orgs, contactEmail) then Failure(ConstraintViolation)
    else
      var orgId := s.nextOrg;
      var withOrg := s.(orgs := s.orgs[orgId := Organization(name, contactEmail, description, Pending)],
                        nextOrg := orgId + 1);
      Success(AddUser(withOrg, User(adminEmail, hash(adminPassword), OrgAdmin, true, Some(orgId))))
  }

  /** Creating an organization keeps names, contact emails and user emails unique. */
  lemma CreateOrganizationKeepsSchema(
    s: Store, name: string, contactEmail: string, description: string,
    adminEmail: string, adminPassword: string, hash: string -> string)
    requires Valid(s)
    requires CreateOrganization(s, name, contactEmail, description, adminEmail, adminPassword, hash).Success?
    ensures Valid(CreateOrganization(s, name, contactEmail, description, adminEmail, adminPassword, hash).value)
  {
    var t := CreateOrganization(s, name, contactEmail, description, adminEmail, adminPassword, hash).value;
    assert s.nextOrg !in s.orgs && s.nextUser !in s.users;
    assert OrgKeysUnique(t.orgs) by {
      forall a | a in s.orgs ensures s.orgs[a].name != name && s.orgs[a].contactEmail != contactEmail {
      }
    }
    assert EmailsUnique(t.users) by {
      forall a | a in s.users ensures s.users[a].email != adminEmail {
      }
    }
  }

  /** The statuses the approval route accepts: approved, rejected or disabled, never back to pending. */
  function SettableOrgStatus(text: string): (r: Option<OrgStatus>)
    ensures r.Some? ==> OrgStatusName(r.value) == text && r.value != Pending
    ensures r.None? ==> forall st: OrgStatus :: st != Pending ==> OrgStatusName(st) != text
  {
    if text == "approved" then Some(Approved)
    else if text == "rejected" then Some(Rejected)
    else if text == "disabled" then Some(Disabled)
    else None
  }

  /**
    The super admin sets an organization's status. The requested status is
    checked first, then the organization; whatever the prior status was, it
    is overwritten.
  */
  function SetOrganizationStatus(s: Store, orgId: Id, status: string): (r: Result<Store, Error>)
    ensures SettableOrgStatus(status).None? ==> r == Failure(InvalidStatus)
    ensures (SettableOrgStatus(status).Some? && orgId !in s.orgs) ==> r == Failure(OrganizationNotFound)
    ensures r.Success? <==> SettableOrgStatus(status).Some? && orgId in s.orgs
    ensures r.Success? ==>
              && r.value.orgs.Keys == s.orgs.Keys
              && OrgStatusName(r.value.orgs[orgId].status) == status
              && r.value.orgs[orgId].(status := Pending) == s.orgs[orgId].(status := Pending)
              && (forall id :: id in s.orgs && id != orgId ==> r.value.orgs[id] == s.orgs[id])
              && r.value.users == s.users && r.value.opps == s.opps && r.value.signups == s.signups
              && r.value.nextOrg == s.nextOrg
              && r.value.nextUser == s.nextUser && r.value.nextOpp == s.nextOpp && r.value.nextSignup == s.nextSignup
  {
    match SettableOrgStatus(status)
    case None => Failure(InvalidStatus)
    case Some(st) =>
      if orgId !in s.orgs then Failure(OrganizationNotFound)
      else Success(s.(orgs := s.orgs[orgId := s.orgs[orgId].(status := st)]))
  }

  /** Changing an organization's status keeps the schema constraints. */
  lemma SetOrganizationStatusKeepsSchema(s: Store, orgId: Id, status: string)
    requires Valid(s)
    requires SetOrganizationStatus(s, orgId, status).Success?
    ensures Valid(SetOrganizationStatus(s, orgId, status).value)
  {
  }

  /** The organization list: all of them, or those whose status text equals the (truthy) filter. */
  function ListOrganizations(s: Store, statusFilter: string): (r: set<Id>)
    ensures r <= s.orgs.Keys
    ensures statusFilter == "" ==> r == s.orgs.Keys
  {
    if statusFilter == "" then s.orgs.Keys
    else set id | id in s.orgs && OrgStatusName(s.orgs[id].status) == statusFilter
  }

  /**
    Filtering by the name of a status lists exactly the organizations in that
    status; a filter that names no status lists nothing.
  */
  lemma ListByStatus(s: Store, st: OrgStatus, unknown: string)
    requires unknown != "" && forall x: OrgStatus :: OrgStatusName(x) != unknown
    ensures forall id :: id in ListOrganizations(s, OrgStatusName(st)) <==> id in s.orgs && s.orgs[id].status == st
    ensures ListOrganizations(s, unknown) == {}
  {
    forall id | id in s.orgs
      ensures OrgStatusName(s.orgs[id].status) == OrgStatusName(st) <==> s.orgs[id].status == st
    {
      StatusNameInjective(s.orgs[id].status, st);
    }
  }

  lemma StatusNameInjective(a: OrgStatus, b: OrgStatus)
    ensures OrgStatusName(a) == OrgStatusName(b) <==> a == b
  {
  }

  /** After an approval the organization is listed under "approved" and no longer under "pending". */
  lemma ApprovalMovesListing(s: Store, orgId: Id)
    requires orgId in s.orgs
    ensures SetOrganizationStatus(s, orgId, "approved").Success?
    ensures var t := SetOrganizationStatus(s, orgId, "approved").value;
            orgId in ListOrganizations(t, "approved") && orgId !in ListOrganizations(t, "pending")
  {
  }
}

=== FILE: errors.dfy ===
/**
  The error kinds the route handlers answer with. Each stands for one
  response message of the routes; a failed handler writes nothing.
*/
module Errors {
  datatype Error =
    | OpportunityUnavailable   // signup: not found or not published
    | OpportunityFull
    | AlreadySignedUp
    | SignupNotFound           // not found, or not the caller's to change
    | EventStarted
    | OrganizationNotApproved
    | OpportunityNotFound      // not found, or not the caller's organization's
    | SlotsBelowSignups
    | InvalidStatus
    | OrganizationNameTaken
    | AdminEmailTaken
    | OrganizationNotFound
    | UserExists
    | TokenMissing
    | TokenInvalid
    | UserNotFound
    | InvalidCredentials
    | EmailNotVerified
    | ConstraintViolation      // the database refused the write (a 500)
}

=== FILE: middleware.dfy ===
/**
  The route gate auth(roles) (server/middleware/auth.js). Token
  verification (a JSON web token checked against the server secret) is an
  oracle: it yields the user object the token carries, or None when
  verification throws (bad signature, expired, malformed).
*/
module Middleware {
  import opened Wrappers
  import opened Schema

  /**
    The user object a verified token carries. A login token holds the
    user's id, role and organization; the email-verification token holds
    only the id, so its role (and organization) is absent.
  */
  datatype Claims = Claims(id: Id, role: Option<Role>, orgId: Option<Id>)

  /** The argument of auth(): a single role name or a list of names; no argument is the empty list. */
  datatype RoleSpec = OneRole(name: string) | RoleList(names: seq<string>)

  /** The role names a gate admits, a single name becoming a one-element list. */
  function AllowedRoles(spec: RoleSpec): seq<string> {
    match spec
    case OneRole(name) => [name]
    case RoleList(names) => names
  }

  /** The token's role is one of the names listed; an absent role is in no list. */
  predicate RoleListed(role: Option<Role>, roles: seq<string>) {
    role.Some? && RoleName(role.value) in roles
  }

  /** The gate's decision: pass the request on with the token's claims, or answer 401 / 403. */
  datatype Gate = Admit(user: Claims) | Unauthorized | Forbidden

  /**
    The gate for a request carrying the x-auth-token header `token` (the empty
    text when the header is absent). An empty list of roles admits any
    verified user.
  */
  function Authorize(spec: RoleSpec, token: string, verify: string -> Option<Claims>): (g: Gate)
    ensures token == "" ==> g == Unauthorized
    ensures token != "" && verify(token).None? ==> g == Unauthorized
    ensures g.Admit? ==> token != "" && verify(token) == Some(g.user)
    ensures g.Admit? ==> |AllowedRoles(spec)| == 0 || (g.user.role.Some? && RoleName(g.user.role.value) in AllowedRoles(spec))
    ensures g == Forbidden <==>
              && token != ""
              && verify(token).Some?
              && |AllowedRoles(spec)| > 0
              && (verify(token).value.role.None? || RoleName(verify(token).value.role.value) !in AllowedRoles(spec))
  {
    var roles := AllowedRoles(spec);
    if token == "" then Unauthorized
    else match verify(token)
      case None => Unauthorized
      case Some(user) =>
        if |roles| > 0 && !RoleListed(user.role, roles) then Forbidden
        else Admit(user)
  }

  /** auth("x") behaves exactly as auth(["x"]). */
  lemma OneRoleIsOneElementList(name: string, token: string, verify: string -> Option<Claims>)
    ensures Authorize(OneRole(name), token, verify) == Authorize(RoleList([name]), token, verify)
  {
  }

  /** auth() admits every request whose token verifies. */
  lemma NoRolesAdmitsAnyVerified(token: string, verify: string -> Option<Claims>)
    requires token != "" && verify(token).Some?
    ensures Authorize(RoleList([]), token, verify) == Admit(verify(token).value)
  {
  }

  /**
    A route guarded by one role admits a verified token exactly when the
    token's role is that role.
  */
  lemma SingleRoleGate(role: Role, token: string, verify: string -> Option<Claims>)
    requires token != "" && verify(token).Some?
    ensures Authorize(OneRole(RoleName(role)), token, verify).Admit? <==> verify(token).value.role == Some(role)
    ensures verify(token).value.role != Some(role) ==> Authorize(OneRole(RoleName(role)), token, verify) == Forbidden
  {
    if verify(token).value.role.Some? {
      RoleNameInjective(role, verify(token).value.role.value);
    }
  }

  /**
    A verified token without a role, such as the email-verification token,
    is refused with 403 by every gate that names roles, and let through by
    the gate that names none.
  */
  lemma RoleLessToken(spec: RoleSpec, token: string, verify: string -> Option<Claims>)
    requires token != "" && verify(token).Some? && verify(token).value.role.None?
    ensures |AllowedRoles(spec)| > 0 ==> Authorize(spec, token, verify) == Forbidden
    ensures |AllowedRoles(spec)| == 0 ==> Authorize(spec, token, verify) == Admit(verify(token).value)
  {
  }

  lemma RoleNameInjective(a: Role, b: Role)
    ensures RoleName(a) == RoleName(b) <==> a == b
  {
  }
}

=== FILE: organizations.dfy ===
/**
  The organization-admin routes (server/routes/organizations.js): creating
  and editing opportunities, the volunteer roster of one opportunity, and
  overwriting a signup's status. The caller's organization id comes from the
  verified token (NULL for a user without an organization).
*/
module Organizations {
  import opened Wrappers
  import opened Schema
  import opened Errors

  // ---------------------------------------------------------------------
  // Create
  // ---------------------------------------------------------------------

  /** The fields of a create request. */
  datatype OpportunityInput = OpportunityInput(
    title: string,
    description: string,
    location: string,
    startDate: int,
    endDate: int,
    totalSlots: int)

  /** The caller's organization exists and is approved. */
  predicate MayCreate(s: Store, orgId: Option<Id>) {
    orgId.Some? && orgId.value in s.orgs && s.orgs[orgId.value].status == Approved
  }

  /**
    An approved organization creates an opportunity: a draft with every slot
    free. Nothing validates the slot count.
  */
  function CreateOpportunity(s: Store, orgId: Option<Id>, input: OpportunityInput): (r: Result<Store, Error>)
    ensures !MayCreate(s, orgId) ==> r == Failure(OrganizationNotApproved)
    ensures MayCreate(s, orgId) ==> r.Success?
    ensures r.Success? ==>
              && r.value.opps.Keys == s.opps.Keys + {s.nextOpp}
              && (forall id :: id in s.opps && id != s.nextOpp ==> r.value.opps[id] == s.opps[id])
              && Some(r.value.opps[s.nextOpp].orgId) == orgId
              && r.value.opps[s.nextOpp].status == OppStatusDefault
              && r.value.opps[s.nextOpp].totalSlots == input.totalSlots
              && r.value.opps[s.nextOpp].remainingSlots == r.value.opps[s.nextOpp].totalSlots
              && r.value.opps[s.nextOpp].startDate == input.startDate
              && r.value.opps[s.nextOpp].endDate == input.endDate
              && r.value.opps[s.nextOpp].title == input.title
              && r.value.opps[s.nextOpp].description == input.description
              && r.value.opps[s.nextOpp].location == input.location
              && r.value.nextOpp == s.nextOpp + 1
              && r.value.nextUser == s.nextUser && r.value.nextOrg == s.nextOrg && r.value.nextSignup == s.nextSignup
              && r.value.users == s.users && r.value.orgs == s.orgs && r.value.signups == s.signups
  {
    if !MayCreate(s, orgId) then Failure(OrganizationNotApproved)
    else
      var opp := Opportunity(orgId.value, input.title, input.description, input.location,
                             input.startDate, input.endDate, input.totalSlots, input.totalSlots, Draft);
      Success(s.(opps := s.opps[s.nextOpp := opp], nextOpp := s.nextOpp + 1))
  }

  /** Creating an opportunity keeps the schema constraints. */
  lemma CreateKeepsSchema(s: Store, orgId: Option<Id>, input: OpportunityInput)
    requires Valid(s)
    requires CreateOpportunity(s, orgId, input).Success?
    ensures Valid(CreateOpportunity(s, orgId, input).value)
  {
    assert s.nextOpp !in s.opps;
  }

  /** A new opportunity has no registered signup, so the ledger holds for it from the start. */
  lemma CreateKeepsLedger(s: Store, orgId: Option<Id>, input: OpportunityInput)
    requires Valid(s) && SlotLedger(s)
    requires CreateOpportunity(s, orgId, input).Success?
    ensures SlotLedger(CreateOpportunity(s, orgId, input).value)
  {
    var t := CreateOpportunity(s, orgId, input).value;
    assert s.nextOpp !in s.opps;
    assert RegisteredFor(s.signups, s.nextOpp) == {} by {
      forall k | k in s.signups ensures s.signups[k].opportunityId != s.nextOpp {
        assert s.signups[k].opportunityId in s.opps;
      }
    }
  }

  /** A new opportunity is a draft, so volunteers cannot sign up for it yet. */
  lemma CreatedIsDraft(s: Store, orgId: Option<Id>, input: OpportunityInput)
    requires StatusMatchesSlots(s)
    requires CreateOpportunity(s, orgId, input).Success?
    ensures StatusMatchesSlots(CreateOpportunity(s, orgId, input).value)
    ensures CreateOpportunity(s, orgId, input).value.opps[s.nextOpp].status != Published
  {
  }

  // ---------------------------------------------------------------------
  // Edit
  // ---------------------------------------------------------------------

  /**
    The fields of an edit request. A total of 0 and an empty status are
    falsy: the route treats them as "not given".
  */
  datatype OpportunityEdit = OpportunityEdit(
    title: string,
    description: string,
    location: string,
    startDate: int,
    endDate: int,
    totalSlots: int,
    status: string)

  /** The opportunity exists and belongs to the caller's organization. */
  predicate Owns(s: Store, orgId: Option<Id>, oppId: Id) {
    oppId in s.opps && orgId == Some(s.opps[oppId].orgId)
  }

  /** The edit gives a (truthy) total that differs from the stored one. */
  predicate Resizes(opp: Opportunity, edit: OpportunityEdit) {
    edit.totalSlots != 0 && edit.totalSlots != opp.totalSlots
  }

  /**
    An organization edits one of its opportunities. A new total is checked
    against the registered signups and recomputes the remaining slots; a
    published opportunity left with no slot is stored as full. The status
    text is written as given, so one outside the enumeration is refused by
    the CHECK constraint and nothing is written.
  */
  function UpdateOpportunity(s: Store, orgId: Option<Id>, oppId: Id, edit: OpportunityEdit): (r: Result<Store, Error>)
    ensures !Owns(s, orgId, oppId) ==> r == Failure(OpportunityNotFound)
    ensures (Owns(s, orgId, oppId) && Resizes(s.opps[oppId], edit)
             && edit.totalSlots < RegisteredCount(s.signups, oppId)) ==> r == Failure(SlotsBelowSignups)
    ensures r == Failure(ConstraintViolation) <==>
              && Owns(s, orgId, oppId)
              && !(Resizes(s.opps[oppId], edit) && edit.totalSlots < RegisteredCount(s.signups, oppId))
              && edit.status != ""
              && ParseOppStatus(edit.status).None?
    ensures r.Success? <==>
              && Owns(s, orgId, oppId)
              && !(Resizes(s.opps[oppId], edit) && edit.totalSlots < RegisteredCount(s.signups, oppId))
              && (edit.status == "" || ParseOppStatus(edit.status).Some?)
    ensures r.Success? ==>
              var before := s.opps[oppId];
              && r.value.opps.Keys == s.opps.Keys
              && (forall id :: id in s.opps && id != oppId ==> r.value.opps[id] == s.opps[id])
              && r.value.users == s.users && r.value.orgs == s.orgs && r.value.signups == s.signups
              && r.value.nextOpp == s.nextOpp && r.value.nextSignup == s.nextSignup
              && r.value.nextUser == s.nextUser && r.value.nextOrg == s.nextOrg
              && r.value.opps[oppId].orgId == before.orgId
              && r.value.opps[oppId].totalSlots == edit.totalSlots
              && (Resizes(before, edit) ==>
                    r.value.opps[oppId].remainingSlots == edit.totalSlots - RegisteredCount(s.signups, oppId))
              && (!Resizes(before, edit) ==> r.value.opps[oppId].remainingSlots == before.remainingSlots)
              && (r.value.opps[oppId].status == Published ==> r.value.opps[oppId].remainingSlots != 0)
              && (r.value.opps[oppId].status == Full ==>
                    r.value.opps[oppId].remainingSlots == 0 || edit.status == "full" || (edit.status == "" && before.status == Full))
              && (edit.status != "" && edit.status != "published" ==> OppStatusName(r.value.opps[oppId].status) == edit.status)
              && (edit.status == "" && before.status != Published ==> r.value.opps[oppId].status == before.status)
    ensures r.Success? ==>
              var before := s.opps[oppId];
              var after := r.value.opps[oppId];
              var requested := if edit.status != "" then edit.status else OppStatusName(before.status);
              && after.title == edit.title && after.description == edit.description && after.location == edit.location
              && after.startDate == edit.startDate && after.endDate == edit.endDate
              && (requested == "published" ==> after.status == (if after.remainingSlots == 0 then Full else Published))
              && (requested != "published" ==> OppStatusName(after.status) == requested)
  {
    if !Owns(s, orgId, oppId) then Failure(OpportunityNotFound)
    else
      var opp := s.opps[oppId];
      var registered := RegisteredCount(s.signups, oppId);
      if Resizes(opp, edit) && edit.totalSlots < registered then Failure(SlotsBelowSignups)
      else
        var left := if Resizes(opp, edit) then edit.totalSlots - registered else opp.remainingSlots;
        var requested := if edit.status != "" then edit.status else OppStatusName(opp.status);
        var stored := if left == 0 && requested == "published" then "full" else requested;
        match ParseOppStatus(stored)
        case None => Failure(ConstraintViolation)
        case Some(status) =>
          Success(s.(opps := s.opps[oppId := Opportunity(opp.orgId, edit.title, edit.description, edit.location,
                                                         edit.startDate, edit.endDate, edit.totalSlots, left, status)]))
  }

  /** Editing keeps the schema constraints (the owner of the row is never changed). */
  lemma UpdateKeepsSchema(s: Store, orgId: Option<Id>, oppId: Id, edit: OpportunityEdit)
    requires Valid(s)
    requires UpdateOpportunity(s, orgId, oppId, edit).Success?
    ensures Valid(UpdateOpportunity(s, orgId, oppId, edit).value)
  {
  }

  /**
    An edit with a (truthy) total keeps the ledger: a new total recomputes the
    remaining slots from the registered count, an unchanged one keeps them.
  */
  lemma UpdateKeepsLedger(s: Store, orgId: Option<Id>, oppId: Id, edit: OpportunityEdit)
    requires SlotLedger(s)
    requires edit.totalSlots != 0
    requires UpdateOpportunity(s, orgId, oppId, edit).Success?
    ensures SlotLedger(UpdateOpportunity(s, orgId, oppId, edit).value)
  {
  }

  /**
    A total of 0 is falsy, so it skips the recount but is still written: a
    previously non-zero total becomes 0 with the remaining slots untouched,
    and the ledger no longer holds for that opportunity.
  */
  lemma ZeroTotalBreaksLedger(s: Store, orgId: Option<Id>, oppId: Id, edit: OpportunityEdit)
    requires SlotLedger(s)
    requires edit.totalSlots == 0
    requires UpdateOpportunity(s, orgId, oppId, edit).Success?
    requires s.opps[oppId].totalSlots != 0
    ensures !SlotLedger(UpdateOpportunity(s, orgId, oppId, edit).value)
  {
    var t := UpdateOpportunity(s, orgId, oppId, edit).value;
    assert t.opps[oppId].remainingSlots != t.opps[oppId].totalSlots - RegisteredCount(t.signups, oppId);
  }

  /**
    The edit takes the status text at face value: "full" is stored even when
    slots remain, so "a full opportunity has no room" is not kept by edits.
  */
  lemma ExplicitFullKeepsRoom(s: Store, orgId: Option<Id>, oppId: Id, edit: OpportunityEdit)
    requires Owns(s, orgId, oppId)
    requires !Resizes(s.opps[oppId], edit) && s.opps[oppId].remainingSlots > 0
    requires edit.status == "full"
    ensures UpdateOpportunity(s, orgId, oppId, edit).Success?
    ensures UpdateOpportunity(s, orgId, oppId, edit).value.opps[oppId].status == Full
    ensures UpdateOpportunity(s, orgId, oppId, edit).value.opps[oppId].remainingSlots > 0
  {
  }

  /**
    Publishing is an edit: asking for "published" publishes the opportunity
    while it has room, and stores it as full when it has none.
  */
  lemma PublishByEdit(s: Store, orgId: Option<Id>, oppId: Id, edit: OpportunityEdit)
    requires Owns(s, orgId, oppId)
    requires !Resizes(s.opps[oppId], edit)
    requires edit.status == "published"
    ensures UpdateOpportunity(s, orgId, oppId, edit).Success?
    ensures var after := UpdateOpportunity(s, orgId, oppId, edit).value.opps[oppId];
            && (s.opps[oppId].remainingSlots != 0 ==> after.status == Published)
            && (s.opps[oppId].remainingSlots == 0 ==> after.status == Full)
  {
  }

  // ---------------------------------------------------------------------
  // Roster and signup status
  // ---------------------------------------------------------------------

  /** The volunteers of one of the caller's opportunities: the ids of its signup rows, in any status. */
  function Roster(s: Store, orgId: Option<Id>, oppId: Id): (r: Result<set<Id>, Error>)
    ensures !Owns(s, orgId, oppId) ==> r == Failure(OpportunityNotFound)
    ensures r.Success? <==> Owns(s, orgId, oppId)
    ensures r.Success? ==> forall k :: k in r.value <==>
              k in s.signups && s.signups[k].opportunityId == oppId && s.signups[k].volunteerId in s.users
  {
    if !Owns(s, orgId, oppId) then Failure(OpportunityNotFound)
    else Success(set k | k in s.signups && s.signups[k].opportunityId == oppId && s.signups[k].volunteerId in s.users)
  }

  /**
    On a consistent database the roster of one of the caller's opportunities
    holds every signup row of it, and its registered rows are exactly the
    places taken: total slots minus remaining slots.
  */
  lemma RosterCountsTakenSlots(s: Store, orgId: Option<Id>, oppId: Id)
    requires Valid(s) && SlotLedger(s) && Owns(s, orgId, oppId)
    ensures Roster(s, orgId, oppId).Success?
    ensures var rows := Roster(s, orgId, oppId).value;
            && (forall k :: k in s.signups && s.signups[k].opportunityId == oppId ==> k in rows)
            && |set k | k in rows && s.signups[k].status == Registered| == s.opps[oppId].totalSlots - s.opps[oppId].remainingSlots
  {
    var rows := Roster(s, orgId, oppId).value;
    assert (set k | k in rows && s.signups[k].status == Registered) == RegisteredFor(s.signups, oppId);
  }

  /** The signup exists, joins an opportunity, and that opportunity is the caller's organization's. */
  predicate SignupOfOrg(s: Store, orgId: Option<Id>, signupId: Id) {
    && signupId in s.signups
    && s.signups[signupId].opportunityId in s.opps
    && orgId == Some(s.opps[s.signups[signupId].opportunityId].orgId)
  }

  /**
    An organization overwrites the status of a signup of one of its
    opportunities. Any of the three statuses may replace any other, and the
    slot count is not touched.
  */
  function SetSignupStatus(s: Store, orgId: Option<Id>, signupId: Id, status: string): (r: Result<Store, Error>)
    ensures ParseSignupStatus(status).None? ==> r == Failure(InvalidStatus)
    ensures (ParseSignupStatus(status).Some? && !SignupOfOrg(s, orgId, signupId)) ==> r == Failure(SignupNotFound)
    ensures r.Success? <==> ParseSignupStatus(status).Some? && SignupOfOrg(s, orgId, signupId)
    ensures r.Success? ==>
              && r.value.opps == s.opps && r.value.users == s.users && r.value.orgs == s.orgs
              && r.value.signups.Keys == s.signups.Keys
              && SignupStatusName(r.value.signups[signupId].status) == status
              && r.value.signups[signupId].volunteerId == s.signups[signupId].volunteerId
              && r.value.signups[signupId].opportunityId == s.signups[signupId].opportunityId
              && (forall k :: k in s.signups && k != signupId ==> r.value.signups[k] == s.signups[k])
              && r.value.nextSignup == s.nextSignup
              && r.value.nextUser == s.nextUser && r.value.nextOrg == s.nextOrg && r.value.nextOpp == s.nextOpp
  {
    match ParseSignupStatus(status)
    case None => Failure(InvalidStatus)
    case Some(st) =>
      if !SignupOfOrg(s, orgId, signupId) then Failure(SignupNotFound)
      else Success(s.(signups := s.signups[signupId := s.signups[signupId].(status := st)]))
  }

  /** Overwriting a signup status keeps the schema constraints. */
  lemma SetSignupStatusKeepsSchema(s: Store, orgId: Option<Id>, signupId: Id, status: string)
    requires Valid(s)
    requires SetSignupStatus(s, orgId, signupId, status).Success?
    ensures Valid(SetSignupStatus(s, orgId, signupId, status).value)
  {
  }

  /**
    An organization that cancels a registered signup, or marks it completed,
    does not give the slot back: the registered count drops by one and the
    remaining slots stay, so the ledger is broken for that opportunity.
  */
  lemma OrgUnregisterKeepsSlot(s: Store, orgId: Option<Id>, signupId: Id, status: string)
    requires SlotLedger(s)
    requires SignupOfOrg(s, orgId, signupId) && s.signups[signupId].status == Registered
    requires status == "cancelled" || status == "completed"
    ensures SetSignupStatus(s, orgId, signupId, status).Success?
    ensures var t := SetSignupStatus(s, orgId, signupId, status).value;
            var oppId := s.signups[signupId].opportunityId;
            && t.opps[oppId].remainingSlots == s.opps[oppId].remainingSlots
            && RegisteredCount(t.signups, oppId) == RegisteredCount(s.signups, oppId) - 1
            && !SlotLedger(t)
  {
    var oppId := s.signups[signupId].opportunityId;
    var st := ParseSignupStatus(status).value;
    var t := SetSignupStatus(s, orgId, signupId, status).value;
    assert t.signups == s.signups[signupId := s.signups[signupId].(status := st)];
    RegisteredCountAfterWrite(s.signups, signupId, s.signups[signupId].(status := st), oppId);
    assert signupId in RegisteredFor(s.signups, oppId);
  }

  /**
    An organization that sets a cancelled or completed signup back to
    registered takes a place without using a slot: the registered count
    grows by one while the remaining slots stay, so the ledger is broken, and
    on a full opportunity the registered signups now exceed the total.
  */
  lemma OrgReRegisterBreaksLedger(s: Store, orgId: Option<Id>, signupId: Id)
    requires SlotLedger(s)
    requires SignupOfOrg(s, orgId, signupId) && s.signups[signupId].status != Registered
    ensures SetSignupStatus(s, orgId, signupId, "registered").Success?
    ensures var t := SetSignupStatus(s, orgId, signupId, "registered").value;
            var oppId := s.signups[signupId].opportunityId;
            && t.opps[oppId].remainingSlots == s.opps[oppId].remainingSlots
            && RegisteredCount(t.signups, oppId) == RegisteredCount(s.signups, oppId) + 1
            && !SlotLedger(t)
            && (s.opps[oppId].remainingSlots == 0 ==> RegisteredCount(t.signups, oppId) > t.opps[oppId].totalSlots)
  {
    var oppId := s.signups[signupId].opportunityId;
    var t := SetSignupStatus(s, orgId, signupId, "registered").value;
    assert t.signups == s.signups[signupId := s.signups[signupId].(status := Registered)];
    RegisteredCountAfterWrite(s.signups, signupId, s.signups[signupId].(status := Registered), oppId);
    assert signupId !in RegisteredFor(s.signups, oppId);
  }

  /**
    No signup status is final for the organization: a cancelled or completed
    signup can be set back to registered.
  */
  lemma NoFinalSignupStatus(s: Store, orgId: Option<Id>, signupId: Id)
    requires SignupOfOrg(s, orgId, signupId)
    ensures SetSignupStatus(s, orgId, signupId, "registered").Success?
    ensures SetSignupStatus(s, orgId, signupId, "registered").value.signups[signupId].status == Registered
  {
  }
}

=== FILE: public.dfy ===
/**
  The public routes (server/routes/public.js): the opportunity listing with
  its optional location and date filters, and the detail of one
  opportunity. Both show only published opportunities of approved
  organizations.
*/
module Public {
  import opened Wrappers
  import opened Schema
  import opened Errors
  import Volunteers

  /** Published, and its organization is approved. */
  predicate Visible(s: Store, id: Id) {
    && id in s.opps
    && s.opps[id].status == Published
    && s.opps[id].orgId in s.orgs
    && s.orgs[s.opps[id].orgId].status == Approved
  }

  /** The query parameters: an empty location and absent dates filter nothing. */
  datatype Filters = Filters(location: string, startDate: Option<int>, endDate: Option<int>)

  const NoFilters: Filters := Filters("", None, None)

  /** LIKE compares ASCII letters without regard to case. */
  function FoldAscii(c: char): char {
    if 'A' <= c <= 'Z' then (c as int + 32) as char else c
  }

  function Fold(t: string): (r: string)
    ensures |r| == |t|
  {
    seq(|t|, i requires 0 <= i < |t| => FoldAscii(t[i]))
  }

  /** The needle occurs in the text at position i, up to ASCII case. */
  predicate MatchesAt(hay: string, needle: string, i: int)
    requires 0 <= i <= |hay| - |needle|
  {
    Fold(hay[i..i + |needle|]) == Fold(needle)
  }

  /** The LIKE pattern '%needle%': the needle occurs somewhere in the text, up to ASCII case. */
  predicate LikeContains(hay: string, needle: string) {
    exists i :: 0 <= i <= |hay| - |needle| && MatchesAt(hay, needle, i)
  }

  /** A location that holds the filter text verbatim is matched. */
  lemma VerbatimIsMatched(before: string, needle: string, after: string)
    ensures LikeContains(before + needle + after, needle)
  {
    var hay := before + needle + after;
    assert hay[|before|..|before| + |needle|] == needle;
    assert MatchesAt(hay, needle, |before|);
  }

  /** The matching ignores the case of the filter text. */
  lemma LikeIgnoresCase(hay: string, needle: string)
    ensures LikeContains(hay, needle) <==> LikeContains(hay, Fold(needle))
  {
    assert Fold(Fold(needle)) == Fold(needle);
    if LikeContains(hay, needle) {
      var i :| 0 <= i <= |hay| - |needle| && MatchesAt(hay, needle, i);
      assert MatchesAt(hay, Fold(needle), i);
    }
    if LikeContains(hay, Fold(needle)) {
      var i :| 0 <= i <= |hay| - |Fold(needle)| && MatchesAt(hay, Fold(needle), i);
      assert MatchesAt(hay, needle, i);
    }
  }

  /** The filters a row must pass besides visibility. */
  predicate PassesFilters(o: Opportunity, f: Filters) {
    && (f.location == "" || LikeContains(o.location, f.location))
    && (f.startDate.None? || o.startDate >= f.startDate.value)
    && (f.endDate.None? || o.endDate <= f.endDate.value)
  }

  /**
    The public listing, built as the route builds its query: the visible
    opportunities, narrowed by each filter that is present.
  */
  function Listing(s: Store, f: Filters): (r: set<Id>)
    ensures forall id :: id in r <==> Visible(s, id) && PassesFilters(s.opps[id], f)
  {
    var base := set id | id in s.opps && Visible(s, id);
    var byLocation :=
      if f.location != "" then set id | id in base && id in s.opps && LikeContains(s.opps[id].location, f.location)
      else base;
    var byStart :=
      match f.startDate
      case None => byLocation
      case Some(d) => set id | id in byLocation && id in s.opps && s.opps[id].startDate >= d;
    match f.endDate
    case None => byStart
    case Some(d) => set id | id in byStart && id in s.opps && s.opps[id].endDate <= d
  }

  /** The detail of one opportunity, or not-found unless it is visible. */
  function Detail(s: Store, id: Id): (r: Result<Opportunity, Error>)
    ensures r.Success? <==> Visible(s, id)
    ensures r.Success? ==> r.value == s.opps[id]
    ensures r.Failure? ==> r.error == OpportunityUnavailable
  {
    if Visible(s, id) then Success(s.opps[id]) else Failure(OpportunityUnavailable)
  }

  /** Filters only narrow the listing, and without them it is the volunteers' browse list. */
  lemma FiltersNarrow(s: Store, f: Filters)
    ensures Listing(s, f) <= Listing(s, NoFilters)
    ensures Listing(s, NoFilters) == Volunteers.Browse(s)
  {
  }

  /** Every listed opportunity can be opened. */
  lemma ListedHaveDetail(s: Store, f: Filters, id: Id)
    requires id in Listing(s, f)
    ensures Detail(s, id) == Success(s.opps[id])
  {
  }

  /** A full opportunity is neither listed nor viewable. */
  lemma FullIsHidden(s: Store, f: Filters, id: Id)
    requires id in s.opps && s.opps[id].status == Full
    ensures id !in Listing(s, f) && Detail(s, id).Failure?
  {
  }

  /** Taking the last slot hides the opportunity from the listing; cancelling that signup shows it again. */
  lemma LastSlotHidesListing(s: Store, volunteerId: Id, oppId: Id, now: int, f: Filters)
    requires Volunteers.SignUp(s, volunteerId, oppId).Success?
    requires s.opps[oppId].remainingSlots == 1
    requires now <= s.opps[oppId].startDate
    ensures oppId !in Listing(Volunteers.SignUp(s, volunteerId, oppId).value, f)
    ensures var t := Volunteers.SignUp(s, volunteerId, oppId).value;
            var u := Volunteers.CancelSignup(t, s.nextSignup, volunteerId, now);
            u.Success? && (oppId in Listing(u.value, f) <==> oppId in Listing(s, f))
  {
    Volunteers.SignUpThenCancelRestores(s, volunteerId, oppId, now);
  }

  /**
    Signing up does not look at the organization's approval: a volunteer can
    sign up for a published opportunity of an organization that is not
    approved, although no listing shows it.
  */
  lemma SignUpIgnoresApproval(s: Store, volunteerId: Id, oppId: Id, f: Filters)
    requires Volunteers.OpenForSignup(s, oppId) && s.opps[oppId].remainingSlots > 0
    requires !HasSignup(s.signups, volunteerId, oppId) && volunteerId in s.users
    requires s.opps[oppId].orgId in s.orgs && s.orgs[s.opps[oppId].orgId].status != Approved
    ensures Volunteers.SignUp(s, volunteerId, oppId).Success?
    ensures oppId !in Listing(s, f) && Detail(s, oppId).Failure?
  {
  }
}

=== FILE: schema.dfy ===
/**
  The database of the volunteer-matching backend (server/db.js): the four
  tables the routes read and write, their CHECK enumerations, column
  defaults, UNIQUE and FOREIGN KEY constraints, and the super-admin seed.

  A table is a map from row id to row. The AUTOINCREMENT counters are kept
  beside the maps, so that a new row always gets an id no row ever had.
*/
module Schema {
  import opened Wrappers

  /** Row ids: INTEGER PRIMARY KEY AUTOINCREMENT values. */
  type Id = nat

  // ---------------------------------------------------------------------
  // Enumerations (the CHECK(... IN (...)) clauses)
  // ---------------------------------------------------------------------

  datatype Role = SuperAdmin | OrgAdmin | Volunteer
  datatype OrgStatus = Pending | Approved | Rejected | Disabled
  datatype OppStatus = Draft | Published | Closed | Full
  datatype SignupStatus = Registered | Completed | Cancelled

  /** The text stored in users.role. */
  function RoleName(r: Role): string {
    match r
    case SuperAdmin => "super_admin"
    case OrgAdmin => "org_admin"
    case Volunteer => "volunteer"
  }

  /** The text stored in organizations.status. */
  function OrgStatusName(st: OrgStatus): string {
    match st
    case Pending => "pending"
    case Approved => "approved"
    case Rejected => "rejected"
    case Disabled => "disabled"
  }

  /** The text stored in opportunities.status. */
  function OppStatusName(st: OppStatus): string {
    match st
    case Draft => "draft"
    case Published => "published"
    case Closed => "closed"
    case Full => "full"
  }

  /** The text stored in signups.status. */
  function SignupStatusName(st: SignupStatus): string {
    match st
    case Registered => "registered"
    case Completed => "completed"
    case Cancelled => "cancelled"
  }

  /** The CHECK constraint on opportunities.status: the status a text names, if any. */
  function ParseOppStatus(text: string): (r: Option<OppStatus>)
    ensures r.Some? ==> OppStatusName(r.value) == text
    ensures r.None? ==> forall st: OppStatus :: OppStatusName(st) != text
  {
    if text == "draft" then Some(Draft)
    else if text == "published" then Some(Published)
    else if text == "closed" then Some(Closed)
    else if text == "full" then Some(Full)
    else None
  }

  /** The CHECK constraint on signups.status: the status a text names, if any. */
  function ParseSignupStatus(text: string): (r: Option<SignupStatus>)
    ensures r.Some? ==> SignupStatusName(r.value) == text
    ensures r.None? ==> forall st: SignupStatus :: SignupStatusName(st) != text
  {
    if text == "registered" then Some(Registered)
    else if text == "completed" then Some(Completed)
    else if text == "cancelled" then Some(Cancelled)
    else None
  }

  /** Parsing a stored status name gives the status back. */
  lemma StatusNamesRoundTrip(o: OppStatus, g: SignupStatus)
    ensures ParseOppStatus(OppStatusName(o)) == Some(o)
    ensures ParseSignupStatus(SignupStatusName(g)) == Some(g)
  {
  }

  // Column defaults (DEFAULT ...).
  const OrgStatusDefault: OrgStatus := Pending
  const OppStatusDefault: OppStatus := Draft
  const EmailVerifiedDefault: bool := false

  // ---------------------------------------------------------------------
  // Rows
  // ---------------------------------------------------------------------

  /** A row of `users`; orgId is NULL except for organization admins. */
  datatype User = User(email: string, passwordHash: string, role: Role, emailVerified: bool, orgId: Option<Id>)

  /** A row of `organizations` (logo_path and created_at are never read by the routes modelled). */
  datatype Organization = Organization(name: string, contactEmail: string, description: string, status: OrgStatus)

  /** A row of `opportunities`; dates are abstract instants. */
  datatype Opportunity = Opportunity(
    orgId: Id,
    title: string,
    description: string,
    location: string,
    startDate: int,
    endDate: int,
    totalSlots: int,
    remainingSlots: int,
    status: OppStatus)

  /** A row of `signups`. */
  datatype Signup = Signup(volunteerId: Id, opportunityId: Id, status: SignupStatus)

  /** The whole database, with the next AUTOINCREMENT id of each table. */
  datatype Store = Store(
    users: map<Id, User>,
    orgs: map<Id, Organization>,
    opps: map<Id, Opportunity>,
    signups: map<Id, Signup>,
    nextUser: Id,
    nextOrg: Id,
    nextOpp: Id,
    nextSignup: Id)

  /** A freshly created database: empty tables, counters starting at 1. */
  const EmptyStore: Store := Store(map[], map[], map[], map[], 1, 1, 1, 1)

  // ---------------------------------------------------------------------
  // Lookups the routes share
  // ---------------------------------------------------------------------

  predicate EmailTaken(users: map<Id, User>, email: string) {
    exists id :: id in users && users[id].email == email
  }

  predicate OrgNameTaken(orgs: map<Id, Organization>, name: string) {
    exists id :: id in orgs && orgs[id].name == name
  }

  predicate ContactEmailTaken(orgs: map<Id, Organization>, email: string) {
    exists id :: id in orgs && orgs[id].contactEmail == email
  }

  /** Some signup row, in any status, links this volunteer and this opportunity. */
  predicate HasSignup(signups: map<Id, Signup>, volunteerId: Id, oppId: Id) {
    exists k :: k in signups && signups[k].volunteerId == volunteerId && signups[k].opportunityId == oppId
  }

  /** The ids of the registered signups of one opportunity. */
  function RegisteredFor(signups: map<Id, Signup>, oppId: Id): set<Id> {
    set k | k in signups && signups[k].opportunityId == oppId && signups[k].status == Registered
  }

  /** How many signups of one opportunity are registered. */
  function RegisteredCount(signups: map<Id, Signup>, oppId: Id): nat {
    |RegisteredFor(signups, oppId)|
  }

  /** Inserts a user row under the next AUTOINCREMENT id. */
  function AddUser(s: Store, u: User): Store {
    s.(users := s.users[s.nextUser := u], nextUser := s.nextUser + 1)
  }

  // ---------------------------------------------------------------------
  // Constraints every committed state satisfies
  // ---------------------------------------------------------------------

  /** AUTOINCREMENT: every id in use is below the table's counter. */
  predicate IdsBelow(s: Store) {
    && (forall id :: id in s.users ==> id < s.nextUser)
    && (forall id :: id in s.orgs ==> id < s.nextOrg)
    && (forall id :: id in s.opps ==> id < s.nextOpp)
    && (forall id :: id in s.signups ==> id < s.nextSignup)
  }

  /** users.email UNIQUE */
  predicate EmailsUnique(users: map<Id, User>) {
    forall a, b :: a in users && b in users && users[a].email == users[b].email ==> a == b
  }

  /** organizations.name UNIQUE and organizations.contact_email UNIQUE */
  predicate OrgKeysUnique(orgs: map<Id, Organization>) {
    && (forall a, b :: a in orgs && b in orgs && orgs[a].name == orgs[b].name ==> a == b)
    && (forall a, b :: a in orgs && b in orgs && orgs[a].contactEmail == orgs[b].contactEmail ==> a == b)
  }

  /** UNIQUE(volunteer_id, opportunity_id) on signups, whatever the status. */
  predicate SignupPairsUnique(signups: map<Id, Signup>) {
    forall a, b ::
      a in signups && b in signups
      && signups[a].volunteerId == signups[b].volunteerId
      && signups[a].opportunityId == signups[b].opportunityId
      ==> a == b
  }

  /** The FOREIGN KEY clauses (no row is ever deleted by the routes). */
  predicate ForeignKeys(s: Store) {
    && (forall id :: id in s.users && s.users[id].orgId.Some? ==> s.users[id].orgId.value in s.orgs)
    && (forall id :: id in s.opps ==> s.opps[id].orgId in s.orgs)
    && (forall id :: id in s.signups ==> s.signups[id].volunteerId in s.users)
    && (forall id :: id in s.signups ==> s.signups[id].opportunityId in s.opps)
  }

  /** Everything the schema of server/db.js guarantees of a committed state. */
  predicate Valid(s: Store) {
    && IdsBelow(s)
    && EmailsUnique(s.users)
    && OrgKeysUnique(s.orgs)
    && SignupPairsUnique(s.signups)
    && ForeignKeys(s)
  }

  /**
    The capacity ledger: every opportunity's remaining slots are its total
    slots minus its registered signups.
  */
  predicate SlotLedger(s: Store) {
    forall id :: id in s.opps ==> s.opps[id].remainingSlots == s.opps[id].totalSlots - RegisteredCount(s.signups, id)
  }

  /** A published opportunity has room; a full one has none. */
  predicate StatusMatchesSlots(s: Store) {
    forall id :: id in s.opps ==>
      && (s.opps[id].status == Published ==> s.opps[id].remainingSlots > 0)
      && (s.opps[id].status == Full ==> s.opps[id].remainingSlots == 0)
  }

  /** The empty database satisfies the schema, the ledger and the status rule. */
  lemma EmptyStoreValid()
    ensures Valid(EmptyStore) && SlotLedger(EmptyStore) && StatusMatchesSlots(EmptyStore)
  {
  }

  // ---------------------------------------------------------------------
  // Effect of one row write on the registered count
  // ---------------------------------------------------------------------

  /**
    Writing row k (a new one or an existing one) changes the registered set
    of an opportunity by at most k.
  */
  lemma RegisteredAfterWrite(signups: map<Id, Signup>, k: Id, row: Signup, oppId: Id)
    ensures RegisteredFor(signups[k := row], oppId)
         == (RegisteredFor(signups, oppId) - {k})
            + (if row.opportunityId == oppId && row.status == Registered then {k} else {})
  {
    var after := RegisteredFor(signups[k := row], oppId);
    var expected := (RegisteredFor(signups, oppId) - {k})
                    + (if row.opportunityId == oppId && row.status == Registered then {k} else {});
    forall x
      ensures x in after <==> x in expected
    {
      if x == k {
      } else {
        assert x in signups[k := row] <==> x in signups;
      }
    }
  }

  /** Counting form of RegisteredAfterWrite. */
  lemma RegisteredCountAfterWrite(signups: map<Id, Signup>, k: Id, row: Signup, oppId: Id)
    ensures var before := if k in RegisteredFor(signups, oppId) then 1 else 0;
            var now := if row.opportunityId == oppId && row.status == Registered then 1 else 0;
            RegisteredCount(signups[k := row], oppId) == RegisteredCount(signups, oppId) - before + now
  {
    RegisteredAfterWrite(signups, k, row, oppId);
    var rest := RegisteredFor(signups, oppId) - {k};
    if k in RegisteredFor(signups, oppId) {
      assert RegisteredFor(signups, oppId) == rest + {k};
      assert |RegisteredFor(signups, oppId)| == |rest| + 1;
    } else {
      assert RegisteredFor(signups, oppId) == rest;
    }
  }

  // ---------------------------------------------------------------------
  // Super-admin seed
  // ---------------------------------------------------------------------

  const SuperAdminEmail: string := "admin@voluntarios.com"

  /**
    The start-up seed: inserts a verified super admin with the given password
    hash unless a user with the seed email exists.
  */
  function SeedSuperAdmin(s: Store, passwordHash: string): (r: Store)
    ensures EmailTaken(r.users, SuperAdminEmail)
    ensures EmailTaken(s.users, SuperAdminEmail) ==> r == s
    ensures !EmailTaken(s.users, SuperAdminEmail) ==>
              && r.users.Keys == s.users.Keys + {s.nextUser}
              && (forall id :: id in s.users && id != s.nextUser ==> r.users[id] == s.users[id])
              && r.users[s.nextUser] == User(SuperAdminEmail, passwordHash, SuperAdmin, true, None)
              && r.nextUser == s.nextUser + 1
              && r.nextOrg == s.nextOrg && r.nextOpp == s.nextOpp && r.nextSignup == s.nextSignup
              && r.orgs == s.orgs && r.opps == s.opps && r.signups == s.signups
  {
    if EmailTaken(s.users, SuperAdminEmail) then s
    else
      var r := AddUser(s, User(SuperAdminEmail, passwordHash, SuperAdmin, true, None));
      assert r.users[s.nextUser].email == SuperAdminEmail;
      r
  }

  /** Seeding twice is seeding once, whatever hash the second run computes. */
  lemma SeedIdempotent(s: Store, hash1: string, hash2: string)
    ensures SeedSuperAdmin(SeedSuperAdmin(s, hash1), hash2) == SeedSuperAdmin(s, hash1)
  {
  }

  /** The seed keeps the schema constraints and touches no opportunity or signup. */
  lemma SeedPreservesValid(s: Store, passwordHash: string)
    requires Valid(s)
    ensures Valid(SeedSuperAdmin(s, passwordHash))
  {
  }
}

=== FILE: volunteers.dfy ===
/**
  The volunteer routes (server/routes/volunteers.js): browsing, signing up,
  cancelling and the signup history. Signing up and cancelling are the two
  transitions of the capacity ledger: each moves one opportunity's remaining
  slots by exactly one and may flip it between published and full.

  Each handler runs as one synchronous step of the embedded database, so it
  is a pure function from the store before to the store after (or to the
  error it answers with, in which case nothing was written). The emails sent
  after a commit and the activity log are not part of the model.
*/
module Volunteers {
  import opened Wrappers
  import opened Schema
  import opened Errors

  // ---------------------------------------------------------------------
  // What a transition may touch
  // ---------------------------------------------------------------------

  /** Users, organizations and every other opportunity are left as they were. */
  predicate OnlyOpportunityChanged(before: Store, after: Store, oppId: Id) {
    && after.users == before.users
    && after.orgs == before.orgs
    && after.nextUser == before.nextUser
    && after.nextOrg == before.nextOrg
    && after.nextOpp == before.nextOpp
    && after.opps.Keys == before.opps.Keys
    && (forall id :: id in before.opps && id != oppId ==> after.opps[id] == before.opps[id])
  }

  /** Two versions of an opportunity row that differ at most in remaining slots and status. */
  predicate SameListing(a: Opportunity, b: Opportunity) {
    a.(remainingSlots := 0, status := Draft) == b.(remainingSlots := 0, status := Draft)
  }

  // ---------------------------------------------------------------------
  // Sign up
  // ---------------------------------------------------------------------

  /** The signup route's lookup: the opportunity exists and is published. */
  predicate OpenForSignup(s: Store, oppId: Id) {
    oppId in s.opps && s.opps[oppId].status == Published
  }

  /**
    A volunteer signs up for an opportunity. The checks run in order
    (published, then room left, then no earlier signup row of any status
    for the pair); the insert of the registered row, the decrement and the
    flip to full then commit together. The insert names the volunteer from
    the token, so a volunteer id without a user row trips the foreign key.
  */
  function SignUp(s: Store, volunteerId: Id, oppId: Id): (r: Result<Store, Error>)
    ensures !OpenForSignup(s, oppId) ==> r == Failure(OpportunityUnavailable)
    ensures OpenForSignup(s, oppId) && s.opps[oppId].remainingSlots <= 0 ==> r == Failure(OpportunityFull)
    ensures (OpenForSignup(s, oppId) && s.opps[oppId].remainingSlots > 0 && HasSignup(s.signups, volunteerId, oppId))
              ==> r == Failure(AlreadySignedUp)
    ensures (OpenForSignup(s, oppId) && s.opps[oppId].remainingSlots > 0 && !HasSignup(s.signups, volunteerId, oppId)
             && volunteerId !in s.users) ==> r == Failure(ConstraintViolation)
    ensures r.Success? <==>
              && OpenForSignup(s, oppId)
              && s.opps[oppId].remainingSlots > 0
              && !HasSignup(s.signups, volunteerId, oppId)
              && volunteerId in s.users
    ensures r.Success? ==>
              var after := r.value;
              && OnlyOpportunityChanged(s, after, oppId)
              && after.signups.Keys == s.signups.Keys + {s.nextSignup}
              && after.signups[s.nextSignup] == Signup(volunteerId, oppId, Registered)
              && (forall k :: k in s.signups && k != s.nextSignup ==> after.signups[k] == s.signups[k])
              && after.nextSignup == s.nextSignup + 1
              && SameListing(s.opps[oppId], after.opps[oppId])
              && after.opps[oppId].remainingSlots == s.opps[oppId].remainingSlots - 1
              && (after.opps[oppId].status == Full <==> after.opps[oppId].remainingSlots == 0)
              && (after.opps[oppId].status == Published <==> after.opps[oppId].remainingSlots != 0)
  {
    if !OpenForSignup(s, oppId) then Failure(OpportunityUnavailable)
    else
      var opp := s.opps[oppId];
      if opp.remainingSlots <= 0 then Failure(OpportunityFull)
      else if HasSignup(s.signups, volunteerId, oppId) then Failure(AlreadySignedUp)
      else if volunteerId !in s.users then Failure(ConstraintViolation)
      else
        var left := opp.remainingSlots - 1;
        Success(s.(
          signups := s.signups[s.nextSignup := Signup(volunteerId, oppId, Registered)],
          nextSignup := s.nextSignup + 1,
          opps := s.opps[oppId := opp.(remainingSlots := left, status := if left == 0 then Full else opp.status)]))
  }

  // ---------------------------------------------------------------------
  // Cancel
  // ---------------------------------------------------------------------

  /** The cancel route's lookup: the caller's own registered signup, joined with its opportunity. */
  predicate Cancellable(s: Store, signupId: Id, volunteerId: Id) {
    && signupId in s.signups
    && s.signups[signupId].volunteerId == volunteerId
    && s.signups[signupId].status == Registered
    && s.signups[signupId].opportunityId in s.opps
  }

  /**
    A volunteer cancels their own registered signup before the event starts
    (`now` is the request's clock reading). The signup becomes cancelled,
    the opportunity gets its slot back, and a full opportunity that now has
    room is published again.
  */
  function CancelSignup(s: Store, signupId: Id, volunteerId: Id, now: int): (r: Result<Store, Error>)
    ensures !Cancellable(s, signupId, volunteerId) ==> r == Failure(SignupNotFound)
    ensures (Cancellable(s, signupId, volunteerId) && s.opps[s.signups[signupId].opportunityId].startDate < now)
              ==> r == Failure(EventStarted)
    ensures r.Success? <==>
              Cancellable(s, signupId, volunteerId) && now <= s.opps[s.signups[signupId].opportunityId].startDate
    ensures r.Success? ==>
              var oppId := s.signups[signupId].opportunityId;
              var before := s.opps[oppId];
              && OnlyOpportunityChanged(s, r.value, oppId)
              && r.value.signups == s.signups[signupId := s.signups[signupId].(status := Cancelled)]
              && r.value.nextSignup == s.nextSignup
              && SameListing(before, r.value.opps[oppId])
              && r.value.opps[oppId].remainingSlots == before.remainingSlots + 1
              && r.value.opps[oppId].status
                 == (if before.status == Full && r.value.opps[oppId].remainingSlots > 0 then Published else before.status)
  {
    if !Cancellable(s, signupId, volunteerId) then Failure(SignupNotFound)
    else
      var row := s.signups[signupId];
      var opp := s.opps[row.opportunityId];
      if opp.startDate < now then Failure(EventStarted)
      else
        var left := opp.remainingSlots + 1;
        Success(s.(
          signups := s.signups[signupId := row.(status := Cancelled)],
          opps := s.opps[row.opportunityId := opp.(
            remainingSlots := left,
            status := if opp.status == Full && left > 0 then Published else opp.status)]))
  }

  // ---------------------------------------------------------------------
  // Invariants kept by sign up and cancel
  // ---------------------------------------------------------------------

  /** Signing up keeps every schema constraint: in particular no second row for the pair. */
  lemma SignUpKeepsSchema(s: Store, volunteerId: Id, oppId: Id)
    requires Valid(s)
    requires SignUp(s, volunteerId, oppId).Success?
    ensures Valid(SignUp(s, volunteerId, oppId).value)
  {
    var t := SignUp(s, volunteerId, oppId).value;
    InsertSignupKeepsSchema(s, Signup(volunteerId, oppId, Registered), t.opps);
    assert t == s.(signups := s.signups[s.nextSignup := Signup(volunteerId, oppId, Registered)],
                   nextSignup := s.nextSignup + 1, opps := t.opps);
  }

  /** Inserting a signup row for a fresh pair, with opportunities kept under their organizations, keeps the schema. */
  lemma InsertSignupKeepsSchema(s: Store, row: Signup, opps: map<Id, Opportunity>)
    requires Valid(s)
    requires row.volunteerId in s.users && row.opportunityId in s.opps
    requires !HasSignup(s.signups, row.volunteerId, row.opportunityId)
    requires opps.Keys == s.opps.Keys
    requires forall id :: id in opps ==> opps[id].orgId == s.opps[id].orgId
    ensures Valid(s.(signups := s.signups[s.nextSignup := row], nextSignup := s.nextSignup + 1, opps := opps))
  {
    assert s.nextSignup !in s.signups;
  }

  /** Signing up keeps remaining = total - registered for every opportunity. */
  lemma SignUpKeepsLedger(s: Store, volunteerId: Id, oppId: Id)
    requires Valid(s) && SlotLedger(s)
    requires SignUp(s, volunteerId, oppId).Success?
    ensures SlotLedger(SignUp(s, volunteerId, oppId).value)
  {
    var t := SignUp(s, volunteerId, oppId).value;
    var k := s.nextSignup;
    assert k !in s.signups;
    forall id | id in t.opps
      ensures t.opps[id].remainingSlots == t.opps[id].totalSlots - RegisteredCount(t.signups, id)
    {
      RegisteredCountAfterWrite(s.signups, k, Signup(volunteerId, oppId, Registered), id);
    }
  }

  /** Signing up keeps "published has room, full has none". */
  lemma SignUpKeepsStatusRule(s: Store, volunteerId: Id, oppId: Id)
    requires StatusMatchesSlots(s)
    requires SignUp(s, volunteerId, oppId).Success?
    ensures StatusMatchesSlots(SignUp(s, volunteerId, oppId).value)
  {
  }

  /** Cancelling keeps every schema constraint. */
  lemma CancelKeepsSchema(s: Store, signupId: Id, volunteerId: Id, now: int)
    requires Valid(s)
    requires CancelSignup(s, signupId, volunteerId, now).Success?
    ensures Valid(CancelSignup(s, signupId, volunteerId, now).value)
  {
  }

  /** Cancelling keeps remaining = total - registered for every opportunity. */
  lemma CancelKeepsLedger(s: Store, signupId: Id, volunteerId: Id, now: int)
    requires SlotLedger(s)
    requires CancelSignup(s, signupId, volunteerId, now).Success?
    ensures SlotLedger(CancelSignup(s, signupId, volunteerId, now).value)
  {
    var t := CancelSignup(s, signupId, volunteerId, now).value;
    var row := s.signups[signupId];
    forall id | id in t.opps
      ensures t.opps[id].remainingSlots == t.opps[id].totalSlots - RegisteredCount(t.signups, id)
    {
      RegisteredCountAfterWrite(s.signups, signupId, row.(status := Cancelled), id);
      assert signupId in RegisteredFor(s.signups, id) <==> id == row.opportunityId;
    }
  }

  /** Cancelling keeps "published has room, full has none". */
  lemma CancelKeepsStatusRule(s: Store, signupId: Id, volunteerId: Id, now: int)
    requires StatusMatchesSlots(s)
    requires CancelSignup(s, signupId, volunteerId, now).Success?
    ensures StatusMatchesSlots(CancelSignup(s, signupId, volunteerId, now).value)
  {
  }

  // ---------------------------------------------------------------------
  // Sequences of requests
  // ---------------------------------------------------------------------

  /**
    Signing up and then cancelling the new signup before the start gives
    every opportunity back exactly as it was (slots and status); the only
    trace left is the cancelled row.
  */
  lemma SignUpThenCancelRestores(s: Store, volunteerId: Id, oppId: Id, now: int)
    requires SignUp(s, volunteerId, oppId).Success?
    requires now <= s.opps[oppId].startDate
    ensures var t := SignUp(s, volunteerId, oppId).value;
            var u := CancelSignup(t, s.nextSignup, volunteerId, now);
            && u.Success?
            && u.value.opps == s.opps
            && u.value.users == s.users
            && u.value.orgs == s.orgs
            && u.value.signups == s.signups[s.nextSignup := Signup(volunteerId, oppId, Cancelled)]
  {
    var t := SignUp(s, volunteerId, oppId).value;
    assert Cancellable(t, s.nextSignup, volunteerId);
    var u := CancelSignup(t, s.nextSignup, volunteerId, now).value;
    assert u.opps[oppId] == s.opps[oppId];
    assert u.opps == s.opps;
  }

  /**
    The pair stays taken after a cancellation: signing up again for the same
    opportunity is refused as a duplicate.
  */
  lemma ResignUpAfterCancelRejected(s: Store, volunteerId: Id, oppId: Id, now: int)
    requires SignUp(s, volunteerId, oppId).Success?
    requires now <= s.opps[oppId].startDate
    ensures var t := SignUp(s, volunteerId, oppId).value;
            var u := CancelSignup(t, s.nextSignup, volunteerId, now);
            u.Success? && SignUp(u.value, volunteerId, oppId) == Failure(AlreadySignedUp)
  {
    SignUpThenCancelRestores(s, volunteerId, oppId, now);
    var t := SignUp(s, volunteerId, oppId).value;
    var u := CancelSignup(t, s.nextSignup, volunteerId, now).value;
    assert u.signups[s.nextSignup].volunteerId == volunteerId;
    assert HasSignup(u.signups, volunteerId, oppId);
  }

  /**
    A repeated signup is refused and writes nothing: as a duplicate while
    slots remain, and as unavailable once the first one took the last slot
    (the opportunity is then full, so the published lookup fails first).
  */
  lemma RepeatedSignUpRejected(s: Store, volunteerId: Id, oppId: Id)
    requires SignUp(s, volunteerId, oppId).Success?
    ensures var t := SignUp(s, volunteerId, oppId).value;
            && (t.opps[oppId].remainingSlots > 0 ==> SignUp(t, volunteerId, oppId) == Failure(AlreadySignedUp))
            && (t.opps[oppId].remainingSlots == 0 ==> SignUp(t, volunteerId, oppId) == Failure(OpportunityUnavailable))
  {
    var t := SignUp(s, volunteerId, oppId).value;
    assert t.signups[s.nextSignup].volunteerId == volunteerId;
    assert HasSignup(t.signups, volunteerId, oppId);
  }

  /**
    Two signups for the last slot, one after the other: the first takes it
    and marks the opportunity full; the second, from anyone, is refused.
  */
  lemma LastSlotTakenOnce(s: Store, first: Id, second: Id, oppId: Id)
    requires SignUp(s, first, oppId).Success?
    requires s.opps[oppId].remainingSlots == 1
    ensures var t := SignUp(s, first, oppId).value;
            && t.opps[oppId].remainingSlots == 0
            && t.opps[oppId].status == Full
            && SignUp(t, second, oppId) == Failure(OpportunityUnavailable)
  {
  }

  /**
    While published opportunities have room, the "opportunity is full"
    answer cannot occur: a full opportunity is refused by the published
    lookup before the slot check.
  */
  lemma FullAnswerUnreachable(s: Store, volunteerId: Id, oppId: Id)
    requires StatusMatchesSlots(s)
    ensures SignUp(s, volunteerId, oppId) != Failure(OpportunityFull)
  {
  }

  /**
    Two slots, three volunteers: the first two signups take the slots (the
    second marks the opportunity full), the third is refused, and the first
    volunteer's cancellation reopens one slot and publishes it again.
  */
  lemma TwoSlotScenario(s: Store, a: Id, b: Id, c: Id, oppId: Id, now: int)
    requires OpenForSignup(s, oppId) && s.opps[oppId].remainingSlots == 2
    requires a in s.users && b in s.users && a != b
    requires !HasSignup(s.signups, a, oppId) && !HasSignup(s.signups, b, oppId)
    requires now <= s.opps[oppId].startDate
    ensures SignUp(s, a, oppId).Success?
    ensures var s1 := SignUp(s, a, oppId).value;
            && s1.opps[oppId].remainingSlots == 1 && s1.opps[oppId].status == Published
            && SignUp(s1, b, oppId).Success?
    ensures var s2 := SignUp(SignUp(s, a, oppId).value, b, oppId).value;
            && s2.opps[oppId].remainingSlots == 0 && s2.opps[oppId].status == Full
            && SignUp(s2, c, oppId) == Failure(OpportunityUnavailable)
            && CancelSignup(s2, s.nextSignup, a, now).Success?
            && CancelSignup(s2, s.nextSignup, a, now).value.opps[oppId].remainingSlots == 1
            && CancelSignup(s2, s.nextSignup, a, now).value.opps[oppId].status == Published
  {
    var s1 := SignUp(s, a, oppId).value;
    assert !HasSignup(s1.signups, b, oppId) by {
      forall k | k in s1.signups
        ensures !(s1.signups[k].volunteerId == b && s1.signups[k].opportunityId == oppId)
      {
        if k != s.nextSignup {
          assert s1.signups[k] == s.signups[k];
        }
      }
    }
    var s2 := SignUp(s1, b, oppId).value;
    assert s2.signups[s.nextSignup] == s1.signups[s.nextSignup];
    assert Cancellable(s2, s.nextSignup, a);
  }

  // ---------------------------------------------------------------------
  // Browse and history
  // ---------------------------------------------------------------------

  /** The volunteer browse query: published opportunities of approved organizations. */
  function Browse(s: Store): (r: set<Id>)
    ensures forall id :: id in r ==> id in s.opps && s.opps[id].status == Published
    ensures forall id :: id in r ==> s.opps[id].orgId in s.orgs && s.orgs[s.opps[id].orgId].status == Approved
    ensures forall id ::
              (id in s.opps && s.opps[id].status == Published
               && s.opps[id].orgId in s.orgs && s.orgs[s.opps[id].orgId].status == Approved) ==> id in r
  {
    set id | id in s.opps && s.opps[id].orgId in s.orgs
      && s.opps[id].status == Published && s.orgs[s.opps[id].orgId].status == Approved
  }

  /** The start date a history row is ordered by (rows outside the join sort as 0). */
  function StartOf(s: Store, k: Id): int {
    if k in s.signups && s.signups[k].opportunityId in s.opps then s.opps[s.signups[k].opportunityId].startDate else 0
  }

  /** The rows of a volunteer's history: their signups in any status, joined with opportunity and organization. */
  function HistoryRows(s: Store, volunteerId: Id): set<Id> {
    set k | k in s.signups && s.signups[k].volunteerId == volunteerId
      && s.signups[k].opportunityId in s.opps && s.opps[s.signups[k].opportunityId].orgId in s.orgs
  }

  /** Ordered by start date, latest first. */
  predicate NewestFirst(s: Store, rows: seq<Id>) {
    forall i, j :: 0 <= i < j < |rows| ==> StartOf(s, rows[i]) >= StartOf(s, rows[j])
  }

  predicate Distinct(rows: seq<Id>) {
    forall i, j :: 0 <= i < j < |rows| ==> rows[i] != rows[j]
  }

  /** Places one more row into a history ordered latest first, before the first row that starts no later. */
  function InsertNewestFirst(s: Store, rows: seq<Id>, k: Id): (r: seq<Id>)
    ensures |r| == |rows| + 1
    ensures forall x :: x in r <==> x in rows || x == k
    decreases |rows|
  {
    if |rows| == 0 || StartOf(s, k) >= StartOf(s, rows[0]) then
      [k] + rows
    else
      [rows[0]] + InsertNewestFirst(s, rows[1..], k)
  }

  /** Inserting into a history ordered latest first keeps it ordered. */
  lemma {:induction false} InsertKeepsOrder(s: Store, rows: seq<Id>, k: Id)
    requires NewestFirst(s, rows)
    ensures NewestFirst(s, InsertNewestFirst(s, rows, k))
    decreases |rows|
  {
    if |rows| == 0 || StartOf(s, k) >= StartOf(s, rows[0]) {
      var r := [k] + rows;
      assert forall i :: 0 < i < |r| ==> r[i] == rows[i - 1];
    } else {
      var tail := InsertNewestFirst(s, rows[1..], k);
      InsertKeepsOrder(s, rows[1..], k);
      forall x | x in tail
        ensures StartOf(s, x) <= StartOf(s, rows[0])
      {
        if x != k {
          var j :| 0 <= j < |rows[1..]| && rows[1..][j] == x;
          assert rows[j + 1] == x;
        }
      }
      var r := [rows[0]] + tail;
      assert forall i :: 0 < i < |r| ==> r[i] == tail[i - 1];
      assert forall i :: 0 < i < |r| ==> r[i] in tail;
    }
  }

  /** Inserting a row not yet present keeps every row listed once. */
  lemma {:induction false} InsertKeepsDistinct(s: Store, rows: seq<Id>, k: Id)
    requires Distinct(rows) && k !in rows
    ensures Distinct(InsertNewestFirst(s, rows, k))
    decreases |rows|
  {
    if |rows| == 0 || StartOf(s, k) >= StartOf(s, rows[0]) {
      var r := [k] + rows;
      assert forall i :: 0 < i < |r| ==> r[i] == rows[i - 1];
    } else {
      var tail := InsertNewestFirst(s, rows[1..], k);
      assert rows[0] !in rows[1..];
      InsertKeepsDistinct(s, rows[1..], k);
      var r := [rows[0]] + tail;
      assert forall i :: 0 < i < |r| ==> r[i] == tail[i - 1];
      assert forall i :: 0 < i < |r| ==> r[i] in tail;
    }
  }

  /**
    The signup history of one volunteer: each of their joined signup rows
    exactly once, latest start date first.
  */
  method MySignups(s: Store, volunteerId: Id) returns (rows: seq<Id>)
    ensures forall k :: k in rows <==> k in HistoryRows(s, volunteerId)
    ensures Distinct(rows)
    ensures NewestFirst(s, rows)
  {
    var todo := HistoryRows(s, volunteerId);
    rows := [];
    while todo != {}
      invariant NewestFirst(s, rows)
      invariant Distinct(rows)
      invariant forall k :: k in rows ==> k !in todo
      invariant forall k :: k in HistoryRows(s, volunteerId) <==> k in rows || k in todo
      decreases |todo|
    {
      var k :| k in todo;
      InsertKeepsOrder(s, rows, k);
      InsertKeepsDistinct(s, rows, k);
      rows := InsertNewestFirst(s, rows, k);
      todo := todo - {k};
    }
  }
}

=== FILE: wrappers.dfy ===
/** The optional and result types shared by every module. */
module Wrappers {

  /** An optional value: SQL NULL, an absent request field, a row that was not found. */
  datatype Option<+T> = None | Some(value: T)

  /** The outcome of a request handler: a new value, or the error kind it answers with. */
  datatype Result<+R, +E> = Success(value: R) | Failure(error: E)
}
